=== FILE: README.md ===
# Trading ledger of the finance portfolio tracker

This project models the trading ledger inside the web application's buy, sell and history
handlers, and proves properties about it. An account is a cash balance (`users.cash`) plus an
append-only sequence of transactions (the `purchases` table). Each transaction holds a symbol, a
signed quantity, a price, a signed total and a time stamp. Two transitions change the account:

- **buy** appends one row with the requested share count and its cost, and subtracts the cost from cash. As written, the count may be zero or negative (see "## Findings");
- **sell** appends one row with negated quantity and total, and adds the proceeds to cash.

Three read-only views derive everything else from the ledger:

- the `GROUP BY symbol` sums of quantity and total;
- the per-symbol held quantity used by sell;
- the history page ordered by time.

Modules:

- `Basics`: the `Option` and `Result` wrappers.
- `Ledger`: transactions, the per-symbol sums (`HeldQty`, `SumTotal`), the `GROUP BY symbol` query (`GroupBySymbol`), and the sell handler's per-symbol query (`SymbolQuantity`). In `SymbolQuantity`, `None` stands for the empty result that fails at application.py:247.
- `Trading`: `Buy` as written, the corrected `BuyChecked`, and `Sell`, plus lemmas on their effects.
- `History`: the history query, a stable sort by time.
- `Account`: sequences of requests, and the invariants that hold across all of them. The helper `StepConservesMoney` proves the money-conservation step for one request.

Modelling choices:

- Money (prices, cash, totals) is in integer minor units. The source uses floats.
- The quote lookup is an input `Option<Price>`, where a price is a positive integer.
- The clock is an input `at` on every request.
- The `shares` form field is `Absent` (missing or empty), `Unparsable`, or `Whole(n)`. The two handlers read the text differently. Buy uses `float()` (application.py:89), so for a buy `Whole(n)` is text that both `float()` and the database read as the whole number n, such as "3" or "3.0". Sell uses `int()` (application.py:234), so "3.0" is `Unparsable` there.
- Each request is one atomic step.

## Model

| member | source | states |
|---|---|---|
| Trading.Buy | application.py:69-99 | A buy goes through exactly when there is a symbol, a quote, a parsable share count and `cost <= cash`. Each error kind fires exactly when its check is the first to fail. On success, cash becomes `cash - price*shares`, which stays >= 0. Exactly one row (symbol, shares, price, price*shares, time) is appended, and every earlier row is kept unchanged. |
| Trading.BuyChecked | application.py:81-99 | The corrected buy also rejects a whole share count <= 0 with `NonPositiveShares`. When it accepts, it agrees with `Buy` and cash strictly decreases. |
| Trading.Sell | application.py:220-267 | The checks run in the source's order: symbol missing, empty ledger, unknown quote, non-integer shares, shares <= 0, symbol never traded, held quantity too small. Each error fires exactly when its check is the first to fail. On success, cash grows by `price*shares`. One row (symbol, -shares, price, -price*shares, time) is appended, and earlier rows are kept. |
| Trading.SellAcceptsExactly | application.py:224-248 | A sell goes through if and only if there is a symbol, a quote, and a whole share count with `0 < shares <= held quantity`. The "no holdings", "never traded" and "held <= 0" checks never reject a request that "held < shares" would accept. |
| Trading.BuyMovesOnlyItsSymbol | application.py:89-99 | After a successful buy, the bought symbol's held quantity rises by the share count and its summed total rises by the cost. Every other symbol is unchanged. Cash plus the sum of all totals is conserved. |
| Trading.SellMovesOnlyItsSymbol | application.py:243-267 | After a successful sell, the sold symbol's held quantity drops by exactly the share count and stays >= 0. Its summed total drops by the proceeds. Every other symbol is unchanged. Cash plus the sum of all totals is conserved. |
| Trading.BuyThenSellRestores | application.py:89-267 | When the symbol is not already held in a negative quantity, buying `q > 0` shares at `p` and then selling `q` shares at `p` is accepted. Cash returns to its pre-buy value, and every symbol's held quantity and summed total return to their prior values. |
| Ledger.SumsConcat | application.py:48-243 | The `SUM(quantity)` and `SUM(total)` of one symbol, and the sum of all totals, add up over concatenated stretches of the ledger. |
| Ledger.UntradedHoldsNothing | application.py:243-247 | A symbol with no rows has held quantity 0 and summed total 0. |
| Ledger.AppendOneSums | application.py:96-97 | Appending one row changes only that row's symbol's sums, by the row's quantity and total. The set of traded symbols gains exactly that symbol. |
| Ledger.AddRowKeepsGroups | application.py:48-217 | Folding one more row into the groups of a ledger gives exactly the groups of the ledger with that row appended: one group per traded symbol, each with its sums. |
| Ledger.GroupBySymbol | application.py:48-228 | The `GROUP BY symbol` result has one group per traded symbol, carrying that symbol's `SUM(quantity)` and `SUM(total)`. It is empty if and only if the ledger is empty, which is the sell handler's "no holdings" check. |
| History.InsertByTime | application.py:108 | Inserting a row into time-ordered rows keeps them in time order and adds exactly that row. |
| History.SortByTime | application.py:108 | The result is in time order and is a permutation of its input. |
| History.HistoryRows | application.py:108 | The history page lists every ledger row exactly once, projected to symbol, price, quantity and time, in ascending time order. |
| History.SortOfOrderedIsIdentity | application.py:108 | Sorting rows that are already in time order leaves them as they are, ties included, under the model's append-order tie-break. |
| History.HistoryOfChronological | application.py:108 | If the ledger is already in time order, the model's history page is the ledger in append order. With equal stamps this uses the model's tie-break. |
| History.HeadOfOrderedPermutation | application.py:108 | If the rows' time stamps strictly increase, every time-ordered permutation of them starts with their first row. |
| History.OrderedPermutationIsUnique | application.py:108 | If the rows' time stamps strictly increase, every time-ordered permutation of them is the rows themselves. |
| History.AnyHistoryOfStrictlyChronological | application.py:108 | If the ledger's time stamps strictly increase, every answer the history query may give is the ledger in append order. An answer here is the rows, each once, in ascending time order. |
| Account.Step | application.py:77-267 | A rejected request leaves cash and ledger unchanged. An accepted request appends exactly one row and keeps all earlier rows. Cash never changes unless a row is appended. |
| Account.RunStaysSolvent | application.py:91-99 | From non-negative cash, every sequence of buys and sells keeps cash >= 0, with either buy handler. |
| Account.RunOnlyAppends | application.py:96-97 | Across any sequence of requests, the ledger only grows at the end. Every earlier row stays in place, unchanged. |
| Account.RunConservesMoney | application.py:89-99 | Across any sequence of requests, cash plus the sum of all row totals stays constant, and if every row starts with `total = price * quantity`, every row keeps it. |
| Account.StepNeverShorts | application.py:239-248 | From an account where no symbol is held in a negative quantity, one request with the corrected buy never leaves any symbol held in a negative quantity. |
| Account.RunNeverShorts | application.py:239-248 | From an account where no symbol is held in a negative quantity, no sequence of requests with the corrected buy ever leaves any symbol held in a negative quantity. |
| Account.AsWrittenBuyOfNegativeShares | application.py:81-99 | With the buy as written, any account with cash >= 0 can buy a negative share count `n`. The buy is accepted, cash rises by `price * -n`, and the symbol's held quantity falls by `-n`. |
| Account.AsWrittenBuyOpensShort | application.py:81-99 | With the buy as written, buying -10 shares at 100 from an empty account is accepted. It credits 1000 of cash and leaves the symbol held at -10. |
| Account.RunKeepsHistoryInOrder | application.py:108 | If the clock never runs backwards, the ledger stays in time order. The model's history page then lists the rows in the order the requests appended them. With equal stamps this uses the model's tie-break. |
| Account.RunKeepsHistoryInAppendOrder | application.py:108 | If every request is stamped strictly later than all earlier rows and requests, the ledger's stamps stay strictly increasing. Every answer the history query may give is then the rows in append order, whatever the database does with ties. |
| Account.TradingScenario | application.py:67-271 | Worked example starting from 10000: buy 10 at 100, giving 9000. Buy 10 at 200, giving 7000 with 20 held. Selling 25 is rejected with `InsufficientHoldings` and changes nothing. Selling 20 at 180 gives 10600 with 0 held. A buy with an unresolved quote is rejected with `SymbolNotFound`. |

## Left out

- Web glue is not modelled: routing, templates, redirects, apologies, sessions, login checks, response headers and the error handler (application.py:13-40, 274-283).
- Login, logout, register and quote are not modelled. They hash passwords or query users and have no ledger logic.
- `lookup` and `usd` live in helpers.py, which is not part of this model. A quote is an input `Option<Price>`.
- The index page's profit and net-worth formula (application.py:47-63) is not modelled. It divides floats and uses an unweighted `AVG(price)`. Only its `SUM` grouping is modelled, through `Ledger.GroupBySymbol`.
- Floating point is not modelled: money is in integer minor units, so rounding of `float` prices and cash is not reproduced.
- A buy of non-finite share text is not modelled. `float("nan")` makes `new_cash < 0` false at application.py:93, so the source accepts that buy and writes NaN cash. `float("-inf")` or "-1e999" passes the check at application.py:81 and gives `new_cash` = +inf at application.py:91-93, so the source accepts that buy and writes infinite cash. `SharesField` carries only whole numbers.
- Fractional share text such as "2.5" is not modelled. `float()` in buy would accept it. The model's `SharesField` only carries whole numbers, so integer minor units stay exact.
- Atomicity and concurrency are not modelled. The source's cash update and row insert are separate statements (application.py:260). Each request is modelled as one atomic step, with no interleavings.
- The `print` at application.py:246 is not modelled.
- History.SortByTime: fixes the order of rows with equal time stamps to append order. `ORDER BY` leaves that order unspecified, so the contract promises only time order and permutation.
- History.SortOfOrderedIsIdentity: relies on the model's append-order tie-break. With equal time stamps, `ORDER BY` at application.py:108 may return tied rows in another order. `History.OrderedPermutationIsUnique` is the version that holds for any answer, and it needs strictly increasing stamps.
- History.HistoryOfChronological: relies on the model's append-order tie-break for rows with equal stamps. The claim that holds for any answer of the query is `History.AnyHistoryOfStrictlyChronological`, which needs strictly increasing stamps.
- Account.RunKeepsHistoryInOrder: its second ensures (history equals append order) relies on the model's append-order tie-break when stamps are equal. The claim that holds for any answer of the query is `Account.RunKeepsHistoryInAppendOrder`, which needs a strictly advancing clock.
- Trading.Buy: a buy of text that `float()` rejects ends with an uncaught conversion error in the source. It is modelled as `Err(MalformedShares)`, with no state change.
- Trading.Buy: the source writes the raw share text into the quantity column (application.py:97), but charges `float()` of it (application.py:89). The model stores the parsed whole number, so it assumes the database reads the text back as the same number `float()` gives. That holds for plain integer text. Text on which they disagree is not modelled, such as digit-group underscores ("1_000") or non-ASCII digits.
- Trading.Sell: selling a symbol that was never traded indexes an empty result at application.py:247 and fails there. It is modelled as `Err(NeverTraded)`, with no state change.

## Findings

| source | as written | input that shows it | evidently intended | confidence | as-written member | corrected member |
|---|---|---|---|---|---|---|
| application.py:81-99 | buy checks only that `shares` is present and that `cash - price*shares >= 0`. A negative share count passes both checks. | shares = -10 at price 100 from an empty account: cash rises by 1000 and the symbol is held at -10 | a positive share count, as the message at line 82 ("must provide a positive integer") asks, so that no symbol is ever held in a negative quantity | high (proved on the model; not executed) | Account.AsWrittenBuyOfNegativeShares | Trading.BuyChecked, Account.RunNeverShorts |

=== FILE: account.dfy ===
/** One account driven by a sequence of buy and sell requests, each applied as one atomic step,
    and the invariants that hold across every such sequence. */
module Account {
  import opened Basics
  import opened Ledger
  import opened Trading
  import opened History

  /** Which buy handler the account runs: the one as written, or the one that also turns away
      a share count of zero or less. */
  datatype BuyPolicy = AsWritten | PositiveOnly

  datatype Side = Purchase | Sale

  /** One submitted form, with the quote the quote source gave for its symbol and the clock reading
      the row would be stamped with. */
  datatype Request = Request(side: Side, symbol: Symbol, quote: Option<Price>, shares: SharesField, at: int)

  /** What the handler answers to a request. */
  function Submit(policy: BuyPolicy, s: State, req: Request): Result<State, TradeError>
  {
    match req.side
    case Purchase =>
      if policy == AsWritten then Buy(s, req.symbol, req.quote, req.shares, req.at)
      else BuyChecked(s, req.symbol, req.quote, req.shares, req.at)
    case Sale => Sell(s, req.symbol, req.quote, req.shares, req.at)
  }

  /** The account after one request: a rejected request leaves cash and ledger untouched; an accepted
      one appends exactly one row, and cash never moves without a row being appended. */
  function Step(policy: BuyPolicy, s: State, req: Request): (s': State)
    ensures Submit(policy, s, req).Err? ==> s' == s
    ensures Submit(policy, s, req).Ok? ==> |s'.ledger| == |s.ledger| + 1 && s'.ledger[..|s.ledger|] == s.ledger
    ensures s'.ledger == s.ledger ==> s'.cash == s.cash
  {
    match Submit(policy, s, req)
    case Ok(next) => next
    case Err(_) => s
  }

  /** The account after a sequence of requests, applied one after the other. */
  function Run(policy: BuyPolicy, s: State, reqs: seq<Request>): State
    decreases |reqs|
  {
    if |reqs| == 0 then s else Run(policy, Step(policy, s, reqs[0]), reqs[1..])
  }

  /** Cash is never negative. */
  predicate Solvent(s: State)
  {
    s.cash >= 0
  }

  /** No symbol is held in a negative quantity. */
  ghost predicate NoShortPositions(s: State)
  {
    forall sym :: HeldQty(s.ledger, sym) >= 0
  }

  /** Cash stays non-negative across every sequence of requests, with either buy handler. */
  lemma {:induction false} RunStaysSolvent(policy: BuyPolicy, s: State, reqs: seq<Request>)
    requires Solvent(s)
    ensures Solvent(Run(policy, s, reqs))
    decreases |reqs|
  {
    if |reqs| > 0 {
      RunStaysSolvent(policy, Step(policy, s, reqs[0]), reqs[1..]);
    }
  }

  /** The ledger is append-only: every earlier row survives every later request unchanged and in place. */
  lemma {:induction false} RunOnlyAppends(policy: BuyPolicy, s: State, reqs: seq<Request>)
    ensures |s.ledger| <= |Run(policy, s, reqs).ledger|
    ensures Run(policy, s, reqs).ledger[..|s.ledger|] == s.ledger
    decreases |reqs|
  {
    if |reqs| > 0 {
      var s1 := Step(policy, s, reqs[0]);
      RunOnlyAppends(policy, s1, reqs[1..]);
      var final := Run(policy, s1, reqs[1..]).ledger;
      assert s1.ledger[..|s.ledger|] == s.ledger;
      assert final[..|s.ledger|] == final[..|s1.ledger|][..|s.ledger|];
    }
  }

  /** One step keeps cash plus the summed totals of all rows unchanged. */
  lemma StepConservesMoney(policy: BuyPolicy, s: State, req: Request)
    ensures var s' := Step(policy, s, req);
            s'.cash + Spent(s'.ledger) == s.cash + Spent(s.ledger)
  {
    var r := Submit(policy, s, req);
    if r.Ok? {
      var t := r.value.ledger[|s.ledger|];
      assert r.value.ledger == s.ledger + [t];
      AppendOneSums(s.ledger, t, t.symbol);
    }
  }

  /** Money is neither created nor lost: across any sequence of requests, cash plus the summed totals
      of all rows stays what it was, so cash always equals the starting cash less the net amount
      spent on shares; and every row keeps total = quantity * price. */
  lemma {:induction false} RunConservesMoney(policy: BuyPolicy, s: State, reqs: seq<Request>)
    requires AllWellFormed(s.ledger)
    ensures var s' := Run(policy, s, reqs);
            s'.cash + Spent(s'.ledger) == s.cash + Spent(s.ledger) && AllWellFormed(s'.ledger)
    decreases |reqs|
  {
    if |reqs| > 0 {
      StepConservesMoney(policy, s, reqs[0]);
      RunConservesMoney(policy, Step(policy, s, reqs[0]), reqs[1..]);
    }
  }

  /** With the corrected buy, one step never leaves any symbol held in a negative quantity. */
  lemma StepNeverShorts(s: State, req: Request)
    requires NoShortPositions(s)
    ensures NoShortPositions(Step(PositiveOnly, s, req))
  {
    var s' := Step(PositiveOnly, s, req);
    forall sym
      ensures HeldQty(s'.ledger, sym) >= 0
    {
      assert HeldQty(s.ledger, sym) >= 0;
      if Submit(PositiveOnly, s, req).Ok? {
        match req.side
        case Purchase =>
          BuyMovesOnlyItsSymbol(s, req.symbol, req.quote, req.shares, req.at, sym);
        case Sale =>
          SellMovesOnlyItsSymbol(s, req.symbol, req.quote, req.shares, req.at, sym);
      }
    }
  }

  /** With the corrected buy, no sequence of requests ever leaves a symbol held in a negative quantity. */
  lemma {:induction false} RunNeverShorts(s: State, reqs: seq<Request>)
    requires NoShortPositions(s)
    ensures NoShortPositions(Run(PositiveOnly, s, reqs))
    decreases |reqs|
  {
    if |reqs| > 0 {
      StepNeverShorts(s, reqs[0]);
      RunNeverShorts(Step(PositiveOnly, s, reqs[0]), reqs[1..]);
    }
  }

  /** The buy handler as written accepts a negative share count from any solvent account: the
      "purchase" credits cash with `price * -n` and drives the symbol's held quantity down by `-n`. */
  lemma AsWrittenBuyOfNegativeShares(s: State, symbol: Symbol, p: Price, n: int, at: int)
    requires Solvent(s) && symbol != "" && n < 0
    ensures var r := Submit(AsWritten, s, Request(Purchase, symbol, Some(p), Whole(n), at));
            && r.Ok?
            && r.value.cash == s.cash + Cost(p, -n) > s.cash
            && HeldQty(r.value.ledger, symbol) == HeldQty(s.ledger, symbol) + n < HeldQty(s.ledger, symbol)
  {
    BuyMovesOnlyItsSymbol(s, symbol, Some(p), Whole(n), at, symbol);
  }

  /** The buy handler as written opens a short position: from an empty account, buying -10 shares
      at 100 goes through, credits 1000 of cash, and leaves the symbol held at -10. */
  lemma AsWrittenBuyOpensShort()
    ensures var s' := Step(AsWritten, State(0, []), Request(Purchase, "AAPL", Some(100), Whole(-10), 0));
            && s'.cash == 1000
            && HeldQty(s'.ledger, "AAPL") == -10
            && !NoShortPositions(s')
  {
  }

  /** The clock never runs backwards: each request is stamped no earlier than every row already
      in the ledger and every earlier request. */
  ghost predicate MonotoneClock(ledger: seq<Transaction>, reqs: seq<Request>)
  {
    && (forall k, j :: 0 <= k < |reqs| && 0 <= j < |ledger| ==> ledger[j].boughtAt <= reqs[k].at)
    && (forall k, m :: 0 <= k < m < |reqs| ==> reqs[k].at <= reqs[m].at)
  }

  /** With a clock that never runs backwards the ledger stays in time order, so the modelled history
      page lists the rows exactly in the order the requests appended them (rows with equal stamps in
      the model's tie order; see `RunKeepsHistoryInAppendOrder` for what holds of any tie order). */
  lemma {:induction false} RunKeepsHistoryInOrder(policy: BuyPolicy, s: State, reqs: seq<Request>)
    requires Chronological(s.ledger)
    requires MonotoneClock(s.ledger, reqs)
    ensures Chronological(Run(policy, s, reqs).ledger)
    ensures HistoryRows(Run(policy, s, reqs).ledger) == Project(Run(policy, s, reqs).ledger)
    decreases |reqs|
  {
    if |reqs| > 0 {
      var s1 := Step(policy, s, reqs[0]);
      if Submit(policy, s, reqs[0]).Ok? {
        var t := s1.ledger[|s.ledger|];
        assert s1.ledger == s.ledger + [t];
        assert t.boughtAt == reqs[0].at;
      }
      assert forall i :: 0 <= i < |s.ledger| ==> Project(s.ledger)[i].boughtAt == s.ledger[i].boughtAt;
      assert forall i :: 0 <= i < |s1.ledger| ==> Project(s1.ledger)[i].boughtAt == s1.ledger[i].boughtAt;
      assert Chronological(s1.ledger);
      forall k, j | 0 <= k < |reqs[1..]| && 0 <= j < |s1.ledger|
        ensures s1.ledger[j].boughtAt <= reqs[1..][k].at
      {
        assert reqs[1..][k] == reqs[k + 1];
        if j < |s.ledger| {
          assert s1.ledger[j] == s.ledger[j];
        }
      }
      RunKeepsHistoryInOrder(policy, s1, reqs[1..]);
    } else {
      HistoryOfChronological(s.ledger);
    }
  }

  /** The clock always moves on: each request is stamped strictly later than every row already in
      the ledger and every earlier request. */
  ghost predicate StrictClock(ledger: seq<Transaction>, reqs: seq<Request>)
  {
    && (forall k, j :: 0 <= k < |reqs| && 0 <= j < |ledger| ==> ledger[j].boughtAt < reqs[k].at)
    && (forall k, m :: 0 <= k < m < |reqs| ==> reqs[k].at < reqs[m].at)
  }

  /** With a clock that always moves on, the ledger's time stamps stay strictly increasing.
      Then every answer the history query may give, however the database orders ties, lists the
      rows exactly in the order the requests appended them. */
  lemma {:induction false} RunKeepsHistoryInAppendOrder(policy: BuyPolicy, s: State, reqs: seq<Request>)
    requires StrictlyChronological(s.ledger)
    requires StrictClock(s.ledger, reqs)
    ensures StrictlyChronological(Run(policy, s, reqs).ledger)
    ensures forall rows :: TimeOrdered(rows) && multiset(rows) == multiset(Project(Run(policy, s, reqs).ledger))
              ==> rows == Project(Run(policy, s, reqs).ledger)
    decreases |reqs|
  {
    if |reqs| > 0 {
      var s1 := Step(policy, s, reqs[0]);
      if Submit(policy, s, reqs[0]).Ok? {
        var t := s1.ledger[|s.ledger|];
        assert s1.ledger == s.ledger + [t];
        assert t.boughtAt == reqs[0].at;
      }
      assert forall i :: 0 <= i < |s.ledger| ==> Project(s.ledger)[i].boughtAt == s.ledger[i].boughtAt;
      assert forall i :: 0 <= i < |s1.ledger| ==> Project(s1.ledger)[i].boughtAt == s1.ledger[i].boughtAt;
      assert StrictlyChronological(s1.ledger);
      forall k, j | 0 <= k < |reqs[1..]| && 0 <= j < |s1.ledger|
        ensures s1.ledger[j].boughtAt < reqs[1..][k].at
      {
        assert reqs[1..][k] == reqs[k + 1];
        if j < |s.ledger| {
          assert s1.ledger[j] == s.ledger[j];
        }
      }
      RunKeepsHistoryInAppendOrder(policy, s1, reqs[1..]);
    } else {
      forall rows | TimeOrdered(rows) && multiset(rows) == multiset(Project(s.ledger))
        ensures rows == Project(s.ledger)
      {
        AnyHistoryOfStrictlyChronological(s.ledger, rows);
      }
    }
  }

  /** The worked example: starting from 10000, buy 10 AAPL at 100, buy 10 more at 200, try to sell
      25 (turned away, nothing changes), then sell 20 at 180; cash ends at 10600 with nothing held. */
  lemma TradingScenario()
    ensures var s0 := State(10000, []);
            var s1 := Step(AsWritten, s0, Request(Purchase, "AAPL", Some(100), Whole(10), 1));
            var s2 := Step(AsWritten, s1, Request(Purchase, "AAPL", Some(200), Whole(10), 2));
            var s3 := Step(AsWritten, s2, Request(Sale, "AAPL", Some(200), Whole(25), 3));
            var s4 := Step(AsWritten, s3, Request(Sale, "AAPL", Some(180), Whole(20), 4));
            && s1.cash == 9000 && HeldQty(s1.ledger, "AAPL") == 10
            && s2.cash == 7000 && HeldQty(s2.ledger, "AAPL") == 20
            && Submit(AsWritten, s2, Request(Sale, "AAPL", Some(200), Whole(25), 3)) == Err(InsufficientHoldings)
            && s3 == s2
            && s4.cash == 10600 && HeldQty(s4.ledger, "AAPL") == 0
            && Submit(AsWritten, s0, Request(Purchase, "ZZZZ", None, Whole(1), 1)) == Err(SymbolNotFound)
  {
    var s0 := State(10000, []);
    var t1 := Transaction("AAPL", 10, 100, 1000, 1);
    var t2 := Transaction("AAPL", 10, 200, 2000, 2);
    var t4 := Transaction("AAPL", -20, 180, -3600, 4);
    var s1 := Step(AsWritten, s0, Request(Purchase, "AAPL", Some(100), Whole(10), 1));
    assert s1 == State(9000, [t1]);
    var s2 := Step(AsWritten, s1, Request(Purchase, "AAPL", Some(200), Whole(10), 2));
    assert s2 == State(7000, [t1, t2]);
    AppendOneSums([t1], t2, "AAPL");
    assert [t1] + [t2] == [t1, t2];
    assert HeldQty(s2.ledger, "AAPL") == 20;
    SellAcceptsExactly(s2, "AAPL", Some(200), Whole(25), 3);
    assert s2.ledger[0].symbol in Symbols(s2.ledger);
    var s4 := Step(AsWritten, s2, Request(Sale, "AAPL", Some(180), Whole(20), 4));
    SellAcceptsExactly(s2, "AAPL", Some(180), Whole(20), 4);
    SellMovesOnlyItsSymbol(s2, "AAPL", Some(180), Whole(20), 4, "AAPL");
  }
}

=== FILE: basics.dfy ===
/** Failure-compatible wrappers shared by the ledger modules. */
module Basics {

  /** A value that may be missing: a quote the quote source could not resolve, a SQL row that is not there. */
  datatype Option<+T> = None | Some(value: T)

  /** The outcome of a trade request: the new account state, or the reason it was turned away. */
  datatype Result<+T, +E> = Ok(value: T) | Err(error: E)
}

=== FILE: history.dfy ===
/** The history page's query: the account's rows projected to symbol, price, quantity and time,
    ordered by time ascending. */
module History {
  import opened Ledger

  /** One row of the history query; the total column is not selected. */
  datatype HistoryRow = HistoryRow(symbol: Symbol, price: Price, quantity: int, boughtAt: int)

  function RowOf(t: Transaction): HistoryRow
  {
    HistoryRow(t.symbol, t.price, t.quantity, t.boughtAt)
  }

  /** The ledger's rows in ledger order, projected to the selected columns. */
  function Project(ledger: seq<Transaction>): (rows: seq<HistoryRow>)
  {
    seq(|ledger|, i requires 0 <= i < |ledger| => RowOf(ledger[i]))
  }

  /** The rows' times never decrease. */
  predicate TimeOrdered(rows: seq<HistoryRow>)
  {
    forall i, j :: 0 <= i < j < |rows| ==> rows[i].boughtAt <= rows[j].boughtAt
  }

  /** The ledger's times never decrease: every row was written no earlier than the ones before it. */
  predicate Chronological(ledger: seq<Transaction>)
  {
    TimeOrdered(Project(ledger))
  }

  /** Puts `row` into time-ordered `rows` ahead of every row that is not earlier than it. */
  function InsertByTime(row: HistoryRow, rows: seq<HistoryRow>): (r: seq<HistoryRow>)
    requires TimeOrdered(rows)
    ensures TimeOrdered(r)
    ensures multiset(r) == multiset(rows) + multiset{row}
    ensures |r| > 0 && (r[0] == row || (|rows| > 0 && r[0] == rows[0]))
  {
    if |rows| == 0 || row.boughtAt <= rows[0].boughtAt then [row] + rows
    else
      var rest := InsertByTime(row, rows[1..]);
      assert rows == [rows[0]] + rows[1..];
      [rows[0]] + rest
  }

  /** `ORDER BY bought_at ASC`: a time-ordered rearrangement of exactly the given rows. */
  function SortByTime(rows: seq<HistoryRow>): (r: seq<HistoryRow>)
    ensures TimeOrdered(r)
    ensures multiset(r) == multiset(rows)
  {
    if |rows| == 0 then []
    else
      assert rows == [rows[0]] + rows[1..];
      InsertByTime(rows[0], SortByTime(rows[1..]))
  }

  /** The history page: every row of the ledger, each exactly once, ordered by time ascending. */
  function HistoryRows(ledger: seq<Transaction>): (rows: seq<HistoryRow>)
    ensures TimeOrdered(rows)
    ensures multiset(rows) == multiset(Project(ledger))
    ensures |rows| == |ledger|
  {
    var r := SortByTime(Project(ledger));
    assert |r| == |multiset(r)| == |Project(ledger)|;
    r
  }

  /** Sorting rows that are already in time order leaves them exactly as they are, rows with equal
      stamps included: the sort keeps ties in their given order. */
  lemma {:induction false} SortOfOrderedIsIdentity(rows: seq<HistoryRow>)
    requires TimeOrdered(rows)
    ensures SortByTime(rows) == rows
  {
    if |rows| > 0 {
      SortOfOrderedIsIdentity(rows[1..]);
      assert rows == [rows[0]] + rows[1..];
    }
  }

  /** When the rows were written in time order (the clock never ran backwards), the modelled history
      page is the ledger itself, in the order the rows were appended; rows with equal stamps keep the
      model's append-order tie-break, which the database need not follow. */
  lemma HistoryOfChronological(ledger: seq<Transaction>)
    requires Chronological(ledger)
    ensures HistoryRows(ledger) == Project(ledger)
  {
    SortOfOrderedIsIdentity(Project(ledger));
  }

  /** The rows' times strictly increase: no two rows share a time stamp. */
  predicate StrictlyTimeOrdered(rows: seq<HistoryRow>)
  {
    forall i, j :: 0 <= i < j < |rows| ==> rows[i].boughtAt < rows[j].boughtAt
  }

  /** The ledger's times strictly increase: every row was written later than the ones before it. */
  predicate StrictlyChronological(ledger: seq<Transaction>)
  {
    StrictlyTimeOrdered(Project(ledger))
  }

  /** A time-ordered permutation of rows with strictly increasing stamps starts with their first row:
      the first row is the only one with the smallest stamp. */
  lemma HeadOfOrderedPermutation(rows: seq<HistoryRow>, other: seq<HistoryRow>)
    requires StrictlyTimeOrdered(rows)
    requires TimeOrdered(other)
    requires multiset(other) == multiset(rows)
    requires |rows| > 0
    ensures |other| > 0 && other[0] == rows[0]
  {
    assert rows[0] in multiset(other);
    var j :| 0 <= j < |other| && other[j] == rows[0];
    assert other[0] in multiset(rows);
    var i :| 0 <= i < |rows| && rows[i] == other[0];
    assert other[0].boughtAt <= other[j].boughtAt;
  }

  /** Rows with pairwise distinct, increasing time stamps have only one time-ordered arrangement:
      any time-ordered permutation of them is them. */
  lemma {:induction false} OrderedPermutationIsUnique(rows: seq<HistoryRow>, other: seq<HistoryRow>)
    requires StrictlyTimeOrdered(rows)
    requires TimeOrdered(other)
    requires multiset(other) == multiset(rows)
    ensures other == rows
    decreases |rows|
  {
    assert |other| == |multiset(other)| == |rows|;
    if |rows| > 0 {
      HeadOfOrderedPermutation(rows, other);
      assert rows == [rows[0]] + rows[1..];
      assert other == [other[0]] + other[1..];
      assert multiset(rows[1..]) == multiset(rows) - multiset{rows[0]};
      assert multiset(other[1..]) == multiset(other) - multiset{other[0]};
      OrderedPermutationIsUnique(rows[1..], other[1..]);
    }
  }

  /** When every row was written strictly later than the one before, every answer the history
      query may give (the rows, each once, in ascending time order, whatever the database does with
      ties) is the ledger in the order the rows were appended. */
  lemma AnyHistoryOfStrictlyChronological(ledger: seq<Transaction>, rows: seq<HistoryRow>)
    requires StrictlyChronological(ledger)
    requires TimeOrdered(rows)
    requires multiset(rows) == multiset(Project(ledger))
    ensures rows == Project(ledger)
  {
    OrderedPermutationIsUnique(Project(ledger), rows);
  }
}

=== FILE: ledger.dfy ===
/** The `purchases` table of one account: an append-only sequence of signed transactions,
    and the per-symbol `SUM(quantity)` / `SUM(total)` groupings derived from it. */
module Ledger {
  import opened Basics

  /** A share price in integer minor units; a quote is taken to be a positive price. */
  type Price = p: int | p > 0 witness 1

  /** A ticker symbol exactly as the user typed it: nothing normalises its case. */
  type Symbol = string

  /** One row of `purchases`. A buy stores the requested share count and its cost (zero or negative
      too, since the buy handler does not check the sign); a sell stores negated ones. */
  datatype Transaction = Transaction(symbol: Symbol, quantity: int, price: Price, total: int, boughtAt: int)

  /** One group of `GROUP BY symbol`: the summed quantity and the summed total. */
  datatype Position = Position(quantity: int, total: int)

  /** The row's total is its quantity at its price, as both handlers write it. */
  predicate WellFormed(t: Transaction)
  {
    t.total == t.price * t.quantity
  }

  /** Every row is well formed. */
  predicate AllWellFormed(ledger: seq<Transaction>)
  {
    forall i :: 0 <= i < |ledger| ==> WellFormed(ledger[i])
  }

  /** The symbols that have at least one row, i.e. the groups `GROUP BY symbol` produces. */
  function Symbols(ledger: seq<Transaction>): set<Symbol>
  {
    set i | 0 <= i < |ledger| :: ledger[i].symbol
  }

  /** `SUM(quantity)` over the rows of `sym`: the number of shares of `sym` the account holds. */
  function HeldQty(ledger: seq<Transaction>, sym: Symbol): int
  {
    if |ledger| == 0 then 0
    else (if ledger[0].symbol == sym then ledger[0].quantity else 0) + HeldQty(ledger[1..], sym)
  }

  /** `SUM(total)` over the rows of `sym`: money paid for `sym` less money received for it. */
  function SumTotal(ledger: seq<Transaction>, sym: Symbol): int
  {
    if |ledger| == 0 then 0
    else (if ledger[0].symbol == sym then ledger[0].total else 0) + SumTotal(ledger[1..], sym)
  }

  /** The sum of every row's total, whatever its symbol: net money moved out of cash into shares. */
  function Spent(ledger: seq<Transaction>): int
  {
    if |ledger| == 0 then 0 else ledger[0].total + Spent(ledger[1..])
  }

  /** The per-symbol query of the sell handler: no row at all when the symbol was never traded,
      otherwise one row carrying `SUM(quantity)`. */
  function SymbolQuantity(ledger: seq<Transaction>, sym: Symbol): Option<int>
  {
    if sym in Symbols(ledger) then Some(HeldQty(ledger, sym)) else None
  }

  /** `after` is `before` with exactly `t` added at the end; no earlier row moves or changes. */
  predicate AppendedOne(before: seq<Transaction>, after: seq<Transaction>, t: Transaction)
  {
    && |after| == |before| + 1
    && after[..|before|] == before
    && after[|before|] == t
  }

  /** Summing over two stretches of the ledger is summing over each and adding. */
  lemma {:induction false} SumsConcat(a: seq<Transaction>, b: seq<Transaction>, sym: Symbol)
    ensures HeldQty(a + b, sym) == HeldQty(a, sym) + HeldQty(b, sym)
    ensures SumTotal(a + b, sym) == SumTotal(a, sym) + SumTotal(b, sym)
    ensures Spent(a + b) == Spent(a) + Spent(b)
  {
    if |a| == 0 {
      assert a + b == b;
    } else {
      assert (a + b)[1..] == a[1..] + b;
      SumsConcat(a[1..], b, sym);
    }
  }

  /** A symbol without rows is held in quantity zero and has summed total zero. */
  lemma {:induction false} UntradedHoldsNothing(ledger: seq<Transaction>, sym: Symbol)
    requires sym !in Symbols(ledger)
    ensures HeldQty(ledger, sym) == 0
    ensures SumTotal(ledger, sym) == 0
  {
    if |ledger| > 0 {
      var rest := ledger[1..];
      forall j | 0 <= j < |rest|
        ensures rest[j].symbol != sym
      {
        assert rest[j] == ledger[j + 1];
      }
      assert ledger[0].symbol in Symbols(ledger);
      UntradedHoldsNothing(rest, sym);
    }
  }

  /** The effect of appending one row on the per-symbol sums: only the row's own symbol moves,
      and by exactly the row's quantity and total. */
  lemma AppendOneSums(ledger: seq<Transaction>, t: Transaction, sym: Symbol)
    ensures HeldQty(ledger + [t], sym) == HeldQty(ledger, sym) + (if t.symbol == sym then t.quantity else 0)
    ensures SumTotal(ledger + [t], sym) == SumTotal(ledger, sym) + (if t.symbol == sym then t.total else 0)
    ensures Spent(ledger + [t]) == Spent(ledger) + t.total
    ensures Symbols(ledger + [t]) == Symbols(ledger) + {t.symbol}
  {
    SumsConcat(ledger, [t], sym);
    var after := ledger + [t];
    assert after[|ledger|] == t;
    forall x | x in Symbols(after)
      ensures x in Symbols(ledger) + {t.symbol}
    {
      var i :| 0 <= i < |after| && after[i].symbol == x;
      if i < |ledger| {
        assert after[i] == ledger[i];
      }
    }
    forall x | x in Symbols(ledger)
      ensures x in Symbols(after)
    {
      var i :| 0 <= i < |ledger| && ledger[i].symbol == x;
      assert after[i] == ledger[i];
    }
  }

  /** `groups` holds exactly one group per traded symbol, carrying that symbol's sums. */
  ghost predicate GroupsOf(ledger: seq<Transaction>, groups: map<Symbol, Position>)
  {
    && groups.Keys == Symbols(ledger)
    && forall sym :: sym in groups ==>
         groups[sym].quantity == HeldQty(ledger, sym) && groups[sym].total == SumTotal(ledger, sym)
  }

  /** Folds one more row into its symbol's group, opening the group if it is the symbol's first row. */
  function AddRow(groups: map<Symbol, Position>, t: Transaction): map<Symbol, Position>
  {
    var prior := if t.symbol in groups then groups[t.symbol] else Position(0, 0);
    groups[t.symbol := Position(prior.quantity + t.quantity, prior.total + t.total)]
  }

  /** Folding a row into the groups of a ledger gives the groups of the ledger with that row appended. */
  lemma AddRowKeepsGroups(ledger: seq<Transaction>, groups: map<Symbol, Position>, t: Transaction)
    requires GroupsOf(ledger, groups)
    ensures GroupsOf(ledger + [t], AddRow(groups, t))
  {
    if t.symbol !in groups {
      UntradedHoldsNothing(ledger, t.symbol);
    }
    var next := AddRow(groups, t);
    AppendOneSums(ledger, t, t.symbol);
    forall sym | sym in next
      ensures next[sym].quantity == HeldQty(ledger + [t], sym)
      ensures next[sym].total == SumTotal(ledger + [t], sym)
    {
      AppendOneSums(ledger, t, sym);
    }
  }

  /** The `GROUP BY symbol` with `SUM(quantity)` and `SUM(total)`, accumulated row by row:
      one group per traded symbol, each carrying that symbol's sums. An empty result means
      exactly that the account has no rows at all. */
  function GroupBySymbol(ledger: seq<Transaction>): (groups: map<Symbol, Position>)
    ensures GroupsOf(ledger, groups)
    ensures groups == map[] <==> ledger == []
    decreases |ledger|
  {
    if |ledger| == 0 then map[]
    else
      var rows := ledger[..|ledger| - 1];
      var t := ledger[|ledger| - 1];
      assert ledger == rows + [t];
      AddRowKeepsGroups(rows, GroupBySymbol(rows), t);
      assert t.symbol in Symbols(ledger);
      AddRow(GroupBySymbol(rows), t)
  }
}

=== FILE: trading.dfy ===
/** The buy and sell handlers' decision and bookkeeping logic, as pure transitions over
    one account's cash balance and ledger. */
module Trading {
  import opened Basics
  import opened Ledger

  /** The `users.cash` column of the account plus its rows of `purchases`. */
  datatype State = State(cash: int, ledger: seq<Transaction>)

  /** The `shares` form field: absent (missing or empty), text that does not parse as a number,
      or a whole number. */
  datatype SharesField = Absent | Unparsable | Whole(n: int)

  /** Why a request is turned away. `MalformedShares` in a buy is the uncaught conversion error,
      and `NeverTraded` the out-of-range row access in a sell; both end the request before anything
      is written, like the apologies do. `NonPositiveShares` in a buy is only raised by `BuyChecked`. */
  datatype TradeError =
    | MissingSymbol
    | SymbolNotFound
    | MissingShares
    | MalformedShares
    | NonPositiveShares
    | InsufficientFunds
    | NoHoldings
    | NeverTraded
    | InsufficientHoldings

  /** The cost of `n` shares at `price`; negative when `n` is. */
  function Cost(price: Price, n: int): int
  {
    price * n
  }

  /** The buy handler as written: its only guards are a symbol, a quote, a share count that parses,
      and enough cash for the cost. It does not check that the share count is positive. */
  function Buy(s: State, symbol: Symbol, quote: Option<Price>, shares: SharesField, at: int): (r: Result<State, TradeError>)
    ensures r.Ok? <==> symbol != "" && quote.Some? && shares.Whole? && Cost(quote.value, shares.n) <= s.cash
    ensures r == Err(MissingSymbol) <==> symbol == ""
    ensures r == Err(SymbolNotFound) <==> symbol != "" && quote.None?
    ensures r == Err(MissingShares) <==> symbol != "" && quote.Some? && shares.Absent?
    ensures r == Err(MalformedShares) <==> symbol != "" && quote.Some? && shares.Unparsable?
    ensures r == Err(InsufficientFunds) <==>
              symbol != "" && quote.Some? && shares.Whole? && s.cash < Cost(quote.value, shares.n)
    ensures r.Ok? ==> r.value.cash >= 0 && r.value.cash == s.cash - Cost(quote.value, shares.n)
    ensures r.Ok? ==> AppendedOne(s.ledger, r.value.ledger,
                        Transaction(symbol, shares.n, quote.value, Cost(quote.value, shares.n), at))
  {
    if symbol == "" then Err(MissingSymbol)
    else if quote.None? then Err(SymbolNotFound)
    else if shares.Absent? then Err(MissingShares)
    else if shares.Unparsable? then Err(MalformedShares)
    else
      var total := Cost(quote.value, shares.n);
      var newCash := s.cash - total;
      if newCash < 0 then Err(InsufficientFunds)
      else Ok(State(newCash, s.ledger + [Transaction(symbol, shares.n, quote.value, total, at)]))
  }

  /** The buy handler with the positivity check its own message asks for ("must provide a positive
      integer"): a share count of zero or less is turned away once it is known to be a number. */
  function BuyChecked(s: State, symbol: Symbol, quote: Option<Price>, shares: SharesField, at: int): (r: Result<State, TradeError>)
    ensures r.Ok? <==>
              symbol != "" && quote.Some? && shares.Whole? && shares.n > 0 && Cost(quote.value, shares.n) <= s.cash
    ensures r == Err(NonPositiveShares) <==> symbol != "" && quote.Some? && shares.Whole? && shares.n <= 0
    ensures r.Ok? ==> r == Buy(s, symbol, quote, shares, at) && r.value.cash < s.cash
  {
    if symbol != "" && quote.Some? && shares.Whole? && shares.n <= 0 then Err(NonPositiveShares)
    else Buy(s, symbol, quote, shares, at)
  }

  /** The sell handler: its checks run in the source's order, and only a request that passes all of
      them adds the proceeds to cash and appends a row with negated quantity and total. */
  function Sell(s: State, symbol: Symbol, quote: Option<Price>, shares: SharesField, at: int): (r: Result<State, TradeError>)
    ensures r == Err(MissingSymbol) <==> symbol == ""
    ensures r == Err(NoHoldings) <==> symbol != "" && |s.ledger| == 0
    ensures r == Err(SymbolNotFound) <==> symbol != "" && |s.ledger| > 0 && quote.None?
    ensures r == Err(MalformedShares) <==> symbol != "" && |s.ledger| > 0 && quote.Some? && !shares.Whole?
    ensures r == Err(NonPositiveShares) <==>
              symbol != "" && |s.ledger| > 0 && quote.Some? && shares.Whole? && shares.n <= 0
    ensures r == Err(NeverTraded) <==>
              symbol != "" && |s.ledger| > 0 && quote.Some? && shares.Whole? && shares.n > 0
              && symbol !in Symbols(s.ledger)
    ensures r == Err(InsufficientHoldings) <==>
              symbol != "" && |s.ledger| > 0 && quote.Some? && shares.Whole? && shares.n > 0
              && symbol in Symbols(s.ledger) && HeldQty(s.ledger, symbol) < shares.n
    ensures r.Ok? ==> quote.Some? && shares.Whole? && 0 < shares.n <= HeldQty(s.ledger, symbol)
    ensures r.Ok? ==> r.value.cash == s.cash + Cost(quote.value, shares.n) && r.value.cash > s.cash
    ensures r.Ok? ==> AppendedOne(s.ledger, r.value.ledger,
                        Transaction(symbol, -shares.n, quote.value, -Cost(quote.value, shares.n), at))
  {
    if symbol == "" then Err(MissingSymbol)
    else if |s.ledger| == 0 then Err(NoHoldings)
    else if quote.None? then Err(SymbolNotFound)
    else if !shares.Whole? then Err(MalformedShares)
    else if shares.n <= 0 then Err(NonPositiveShares)
    else
      match SymbolQuantity(s.ledger, symbol)
      case None => Err(NeverTraded)
      case Some(held) =>
        if held <= 0 || held < shares.n then Err(InsufficientHoldings)
        else
          var proceeds := Cost(quote.value, shares.n);
          Ok(State(s.cash + proceeds, s.ledger + [Transaction(symbol, -shares.n, quote.value, -proceeds, at)]))
  }

  /** A sell goes through exactly when there is a symbol, a quote, and a positive whole share count
      no larger than the shares held: the "no holdings", "never traded" and "held <= 0" checks
      never turn away a request the "held < requested" check would let through. */
  lemma SellAcceptsExactly(s: State, symbol: Symbol, quote: Option<Price>, shares: SharesField, at: int)
    ensures Sell(s, symbol, quote, shares, at).Ok? <==>
              symbol != "" && quote.Some? && shares.Whole? && 0 < shares.n <= HeldQty(s.ledger, symbol)
  {
    if symbol != "" && quote.Some? && shares.Whole? && 0 < shares.n <= HeldQty(s.ledger, symbol) {
      if symbol !in Symbols(s.ledger) {
        UntradedHoldsNothing(s.ledger, symbol);
      }
    }
  }

  /** A successful buy moves only its own symbol: that symbol's held quantity grows by the share
      count and its summed total by the cost; every other symbol's sums stay as they were. */
  lemma BuyMovesOnlyItsSymbol(s: State, symbol: Symbol, quote: Option<Price>, shares: SharesField, at: int, sym: Symbol)
    requires Buy(s, symbol, quote, shares, at).Ok?
    ensures var s' := Buy(s, symbol, quote, shares, at).value;
            && HeldQty(s'.ledger, sym) == HeldQty(s.ledger, sym) + (if sym == symbol then shares.n else 0)
            && SumTotal(s'.ledger, sym) == SumTotal(s.ledger, sym)
                 + (if sym == symbol then Cost(quote.value, shares.n) else 0)
            && s'.cash + Spent(s'.ledger) == s.cash + Spent(s.ledger)
  {
    var t := Transaction(symbol, shares.n, quote.value, Cost(quote.value, shares.n), at);
    var s' := Buy(s, symbol, quote, shares, at).value;
    assert s'.ledger == s.ledger + [t];
    AppendOneSums(s.ledger, t, sym);
  }

  /** A successful sell moves only its own symbol: that symbol's held quantity drops by exactly the
      share count and stays non-negative; every other symbol's sums stay as they were. */
  lemma SellMovesOnlyItsSymbol(s: State, symbol: Symbol, quote: Option<Price>, shares: SharesField, at: int, sym: Symbol)
    requires Sell(s, symbol, quote, shares, at).Ok?
    ensures var s' := Sell(s, symbol, quote, shares, at).value;
            && HeldQty(s'.ledger, sym) == HeldQty(s.ledger, sym) - (if sym == symbol then shares.n else 0)
            && HeldQty(s'.ledger, symbol) >= 0
            && SumTotal(s'.ledger, sym) == SumTotal(s.ledger, sym)
                 - (if sym == symbol then Cost(quote.value, shares.n) else 0)
            && s'.cash + Spent(s'.ledger) == s.cash + Spent(s.ledger)
  {
    var t := Transaction(symbol, -shares.n, quote.value, -Cost(quote.value, shares.n), at);
    var s' := Sell(s, symbol, quote, shares, at).value;
    assert s'.ledger == s.ledger + [t];
    AppendOneSums(s.ledger, t, sym);
    AppendOneSums(s.ledger, t, symbol);
  }

  /** Buying `q` shares at price `p` and then selling the same `q` shares at the same `p` goes
      through, gives back exactly the cash the buy took, and leaves every symbol's held quantity and
      summed total where they were before the buy. */
  lemma BuyThenSellRestores(s: State, symbol: Symbol, p: Price, q: int, t1: int, t2: int, sym: Symbol)
    requires q > 0
    requires HeldQty(s.ledger, symbol) >= 0
    requires Buy(s, symbol, Some(p), Whole(q), t1).Ok?
    ensures var s1 := Buy(s, symbol, Some(p), Whole(q), t1).value;
            && Sell(s1, symbol, Some(p), Whole(q), t2).Ok?
            && var s2 := Sell(s1, symbol, Some(p), Whole(q), t2).value;
            && s2.cash == s.cash
            && HeldQty(s2.ledger, sym) == HeldQty(s.ledger, sym)
            && SumTotal(s2.ledger, sym) == SumTotal(s.ledger, sym)
  {
    var s1 := Buy(s, symbol, Some(p), Whole(q), t1).value;
    BuyMovesOnlyItsSymbol(s, symbol, Some(p), Whole(q), t1, symbol);
    BuyMovesOnlyItsSymbol(s, symbol, Some(p), Whole(q), t1, sym);
    SellAcceptsExactly(s1, symbol, Some(p), Whole(q), t2);
    SellMovesOnlyItsSymbol(s1, symbol, Some(p), Whole(q), t2, sym);
  }
}
